=== FILE: README.md ===
# kubesync manager: job status decisions, in Dafny

This project models the decision logic of the kubesync manager, the control
plane that keeps one status record per mirror. Sync workers report their status
to the manager, and an operator tool sends commands through it. The model covers
how each request turns the stored record into the next one:

- the status merge of `updateJob`, and the stamping done by `UpdateJobStatus` and `registerMirror`;
- the size-only update `updateMirrorSize`;
- the schedule batch `updateSchedules`;
- the local effect of `handleClientCmd`;
- the two copies of the `CmdVerb` string and JSON codec (`internal/msg.go`, `internal/types.go`).

The store is a `map<string, JobStatus>`. Each handler is one pure function of
the store, the request, the clock reading `now`, and the outcome of each external
call. It returns a `Step`: the new store, the trace of effects in order (`Get`,
`Put`, `Post`), and the reply. The trace is what lets the model state "no store
access", "no write" and "write before post".

Modules, one per component:

- `Job`: the record and the request payloads.
- `Store`: lookup, and `UpdateJobStatus` (the only write path).
- `StatusMerge`: `updateJob` and `registerMirror`.
- `MirrorSize`: `updateMirrorSize`, as written and as intended.
- `Schedules`: `updateSchedules`, as a left fold.
- `Commands`: `handleClientCmd`.
- `JsonString`: the part of `encoding/json` the codecs use.
- `MsgVerb` and `TypesVerb`: the two verb codecs.

What the code does, where it may surprise:

- `registerMirror` does not create a record. It goes through `UpdateJobStatus`, which re-reads the mirror and fails when it is absent (manager/server.go:199-203).
- Every store failure, including a missing mirror, is a 500-class error in the code, not a 4xx.
- An empty id in a schedule batch is reported, but the item is not skipped. It still reaches the store lookup (manager/server.go:323-331).
- A failed read in `GetJob` dereferences a nil job (manager/server.go:195) while the handler holds the manager's lock. The request dies there and the lock is never released (see Findings).
- `updateJob` reads the current record under the URL id. It writes the merged record under the id in the request body (manager/server.go:370, 410 with 200).
- `updateJob` overwrites `lastRegister` and `scheduled` with whatever the report carries. Only the three transition timestamps and the size are protected.
- `handleClientCmd` ignores the error of its local write and posts the command anyway (manager/server.go:510).
- The decoders map unknown strings to `CmdStart` rather than rejecting them.

## Model

| member | source | states |
|---|---|---|
| Store.Lookup | manager/server.go:179-191 | a lookup succeeds exactly when the mirror is stored, and returns its record |
| Store.UpdateJobStatus | manager/server.go:199-208 | the whole status is replaced by the incoming one with `lastOnline = now`; fails (store unchanged) when the mirror is missing or the write is refused; never creates a key; other mirrors unchanged |
| StatusMerge.Merge | manager/server.go:373-399 | `lastOnline = now`; `lastStarted = now` exactly on a rising edge into PreSyncing, else carried; `lastUpdate = now` exactly on Success; `lastEnded = now` exactly on Success or Failed; a known current size survives an empty/"unknown" incoming size; a known incoming size wins; other fields come from the report |
| StatusMerge.UpdateJob | manager/server.go:364-422 | a missing URL mirror ends the request after one read with no write; success iff both URL and body mirrors exist and the write is accepted; then the body's mirror holds the merge of the URL mirror's record |
| StatusMerge.RegisterMirror | manager/server.go:288-309 | on success the stored record is the registered status with `lastOnline = lastRegister = now`; a missing mirror is an error, never a creation |
| StatusMerge.UpdateJobTouchesOnlyItsMirror | manager/server.go:369-411 | for a report about its own mirror, the write replaces exactly that record by the merge, after two reads |
| StatusMerge.CrossIdReportRegressesSize | manager/server.go:370-410 | a report whose body names mirror b but is posted to mirror a's URL replaces b's known size "10G" by "unknown", because the size kept is a's |
| StatusMerge.RegisterIdempotent | manager/server.go:288-309 | registering the same mirror again at the same instant leaves the store as the first registration left it |
| StatusMerge.RepeatedReportKeepsStart | manager/server.go:377-381 | a retransmitted report at any later time does not move `lastStarted` (no second rising edge) |
| StatusMerge.MergeIdempotent | manager/server.go:373-399 | merging the same report twice at the same instant equals merging it once |
| StatusMerge.ReplayNeverForgetsSize | manager/server.go:394-399 | across any sequence of status reports a known size never becomes unknown |
| StatusMerge.ReplaySizeIsLastKnown | manager/server.go:394-399 | after a sequence of reports the size is that of the last report carrying a known size |
| StatusMerge.ReplayKeepsSize | manager/server.go:394-399 | reports without a known size leave a known size unchanged |
| StatusMerge.ReplayLastUpdate | manager/server.go:382-387 | after a sequence of reports `lastUpdate` is the arrival time of the last Success report |
| StatusMerge.ReplayLastEnded | manager/server.go:388-392 | after a sequence of reports `lastEnded` is the arrival time of the last Success or Failed report |
| StatusMerge.ReplayCarriesUpdate | manager/server.go:385-387 | reports other than Success carry `lastUpdate` forward unchanged |
| StatusMerge.ReplayCarriesEnded | manager/server.go:390-392 | reports other than Success/Failed carry `lastEnded` forward unchanged |
| MirrorSize.GuardAsWrittenAlwaysHolds | manager/server.go:447-450 | the size guard is true of every string, including "" and "unknown" |
| MirrorSize.UpdateMirrorSize | manager/server.go:424-467 | on success the stored size is the reported size whatever it is, `lastOnline = now`, nothing else changes; a missing mirror or refused write leaves the store unchanged |
| MirrorSize.AsWrittenRegressesSize | manager/server.go:447-450 | a stored size "10G" is overwritten by "unknown" and by "" |
| MirrorSize.UpdateMirrorSizeIntended | manager/server.go:447-450 | with the intended guard only a known size is stored; an empty/"unknown" report keeps the stored size; the stored record is stamped with `now` and the reply carries it without that stamp |
| JsonString.TrimLeft | internal/msg.go:77 | what is dropped from the front is JSON whitespace, and the rest does not start with whitespace |
| JsonString.TrimRight | internal/msg.go:77 | what is dropped from the end is JSON whitespace, and the rest does not end with whitespace |
| MirrorSize.IntendedAgreesOnKnownSizes | manager/server.go:447-450 | the intended and as-written handlers coincide on every known size |
| MirrorSize.SizeNeverRegresses | manager/server.go:394-450 | with the intended guard, no interleaving of a mirror's own status reports (body id = URL id) and size reports, at any times and with any write verdicts, makes its known size unknown |
| Schedules.ScheduleItem | manager/server.go:321-359 | corrected loop, one item: missing mirror is logged and skipped without a write; an equal schedule is skipped without a write; otherwise exactly one write attempt, and the written record differs from the stored one only in `scheduled` and `lastOnline`; a refused write ends the batch with the store unchanged; an empty id is flagged |
| Schedules.Run | manager/server.go:321-359 | corrected loop: the loop keeps the key set, keeps earlier log entries, logs one entry per processed item, and processes every item unless a write fails |
| Schedules.UpdateSchedules | manager/server.go:317-362 | corrected loop: a batch that is not cut short logs every item; one that is ends on the item whose write failed |
| Schedules.AbortedEndsWithFailedWrite | manager/server.go:351-358 | the batch stops only on a failed write, and that write is the last log entry |
| Schedules.SettledBatchWritesNothing | manager/server.go:341-344 | a batch whose items already hold their schedules performs no write and changes nothing |
| Schedules.RunKeepsSchedule | manager/server.go:341-348 | a mirror already on schedule `v` stays on `v` when every item naming it asks for `v` |
| Schedules.CompletedBatchSettles | manager/server.go:341-348 | after a completed batch of consistent items every existing mirror holds its item's schedule |
| Schedules.SecondRunWritesNothing | manager/server.go:317-362 | idempotence: a second run of a completed batch whose items agree on each mirror's schedule writes nothing and leaves the store as the first left it |
| Schedules.LookupFailureContinues | manager/server.go:330-339 | corrected loop (read error returned, not dereferenced): a failed lookup does not end the batch, the rest runs from the same store |
| Schedules.WriteFailureStops | manager/server.go:346-358 | a failed write ends the batch; earlier writes stay and later items are not processed |
| Schedules.EmptyIdFallsThrough | manager/server.go:322-339 | corrected loop: an empty id is reported and then still looked up; it is skipped as a failed lookup and the batch goes on |
| Schedules.MiddleEmptyIdDoesNotHurtNeighbours | manager/server.go:317-362 | corrected loop: in `[(a,ta), ("",te), (c,tc)]` both a and c are rescheduled with two writes and the empty id is reported |
| Schedules.ScheduleItemAsWritten | manager/server.go:330-339 | as written: a failed lookup ends the request (panicked, lock held) with no write; a found mirror is handled as in the corrected loop |
| Schedules.RunAsWritten | manager/server.go:321-359 | as written: earlier reports are kept as a prefix; a run that is not ended has reported every item; a run that panics has reported, last, a lookup of a mirror the store does not hold; a panicked request is ended and the key set is kept |
| Schedules.UpdateSchedulesAsWritten | manager/server.go:317-362 | as written: the key set is kept, and a panicked request ends the batch |
| Schedules.AsWrittenAgreesWhenAllFound | manager/server.go:330-339 | when every item names a stored mirror, the loop as written equals the corrected loop and never panics |
| Schedules.EmptyIdPanicsAsWritten | manager/server.go:193-197 | as written, `[(a,ta), ("",te), (c,tc)]` reschedules a, dies on the empty id with the lock held and never reschedules c, which the corrected loop does |
| Commands.LocalStatus | manager/server.go:499-507 | Stop sets Paused, Disable sets Disabled, every other verb has no local effect |
| Commands.HandleClientCmd | manager/server.go:484-525 | an empty id is rejected with no store access; a missing mirror ends after the read with no post; otherwise the post is the last effect and the reply is success iff it was delivered; Stop/Disable write the new status before the post; other verbs write nothing |
| Commands.RelayFailureKeepsLocalChange | manager/server.go:508-522 | the store after a command is the same whether or not the post succeeded; a failed post is reported as a relay failure |
| Commands.StopPausesEvenIfUndelivered | manager/server.go:504-522 | Stop leaves the mirror Paused even when the worker never receives it |
| JsonString.UnquoteTrimmed | internal/msg.go:75-80 | `null` decodes to ""; a decoded literal is the quotation of a plain string; an escape is reported only when a backslash is present |
| JsonString.Unquote | internal/msg.go:77 | JSON whitespace around the value is ignored; `null` gives ""; a decoded value is the quotation of a plain string, and the literal of a plain string, with or without surrounding whitespace, decodes to that string |
| JsonString.UnquoteTrimmedQuote | internal/msg.go:77 | a document that is exactly the literal of a plain string decodes to that string |
| JsonString.UnquoteQuote | internal/msg.go:68-80 | decoding the JSON literal of a plain string gives the string back |
| MsgVerb.ToString | internal/msg.go:47-55 | CmdStart, CmdStop, CmdRestart, CmdPing print as "start", "stop", "restart", "ping"; a verb has a name iff it is one of these four; every other uint8 prints as "" |
| MsgVerb.FromString | internal/msg.go:57-65 | "start", "stop", "restart", "ping" decode to CmdStart, CmdStop, CmdRestart, CmdPing; decoding is total and yields CmdStart for every unknown string |
| MsgVerb.FromToString | internal/msg.go:47-65 | decoding the name of start/stop/restart/ping returns that verb |
| MsgVerb.NamesDistinct | internal/msg.go:47-54 | the four names are pairwise distinct and non-empty |
| MsgVerb.ToFromString | internal/msg.go:47-65 | a string survives decode-then-encode iff it is one of the four names |
| MsgVerb.MarshalJSON | internal/msg.go:68-73 | never errors; the output is `"` + the verb's name + `"`, a JSON string literal that decodes back to the name |
| MsgVerb.UnmarshalJSON | internal/msg.go:75-83 | succeeds iff the input decodes as a JSON string; the result is a named verb, CmdStart for unknown names |
| MsgVerb.JsonRoundTrip | internal/msg.go:68-83 | unmarshalling the marshalled form of a named verb returns the verb |
| MsgVerb.UnnamedVerbJson | internal/msg.go:47-83 | an unnamed uint8 verb marshals to `""` and unmarshals to CmdStart |
| TypesVerb.ToString | internal/types.go:46-54 | CmdStart, CmdStop, CmdRestart, CmdPing print as "start", "stop", "restart", "ping"; every other value, CmdUpdate included, prints as "" |
| TypesVerb.FromString | internal/types.go:56-64 | "start", "stop", "restart", "ping" decode to CmdStart, CmdStop, CmdRestart, CmdPing; total, with CmdStart for every unknown string |
| TypesVerb.FromToString | internal/types.go:46-64 | decoding the name of start/stop/restart/ping returns that verb |
| TypesVerb.NamesDistinct | internal/types.go:46-53 | the four names are pairwise distinct and non-empty |
| TypesVerb.ToFromString | internal/types.go:46-64 | a string survives decode-then-encode iff it is one of the four names |
| TypesVerb.MarshalJSON | internal/types.go:67-72 | never errors; the output is `"` + the verb's name + `"`, which decodes back to the name |
| TypesVerb.UnmarshalJSON | internal/types.go:74-82 | succeeds iff the input decodes as a JSON string; CmdStart for unknown names |
| TypesVerb.JsonRoundTrip | internal/types.go:67-82 | named verbs survive the JSON round trip |
| TypesVerb.UpdateHasNoName | internal/types.go:42-72 | CmdUpdate prints as "", decodes back to CmdStart rather than itself, and marshals to `""` |
| TypesVerb.UnnamedVerbJson | internal/types.go:46-82 | every unnamed verb, CmdUpdate included, marshals to `""` and unmarshals to CmdStart |

## Findings

| source | as written | input that shows it | evidently intended | confidence | as-written member | corrected member |
|---|---|---|---|---|---|---|
| manager/server.go:447-450 | `len(msg.Size) > 0 \|\| msg.Size != "unknown"` is true of every string, so the size is always overwritten | stored size "10G", size report with size "unknown" (or "") | `&&`: only a non-empty size other than "unknown" replaces the stored one, as the comment on line 447 says | high; not executed | MirrorSize.AsWrittenRegressesSize | MirrorSize.UpdateMirrorSizeIntended |
| manager/server.go:193-197 | `GetJob` reads `job.Status` from the nil job of a failed read; in `updateSchedules` (330-332) this happens between `Lock` and `Unlock`, so the `continue` at 338 is never reached and the lock stays held | batch `[(a,1), ("",2), (c,3)]` with a and c stored and not on those schedules | return the read error, skip the item as the `continue` at 338 intends, and release the lock | high; not executed | Schedules.EmptyIdPanicsAsWritten | Schedules.UpdateSchedules |

`MirrorSize.UpdateMirrorSize` models the handler as written. The size
monotonicity property (`MirrorSize.SizeNeverRegresses`) is stated and proved for
the corrected handler. It does not hold for the handler as written.

`Schedules.UpdateSchedulesAsWritten` models the batch as written. The batch
properties (`LookupFailureContinues`, `EmptyIdFallsThrough`,
`MiddleEmptyIdDoesNotHurtNeighbours`, the idempotence lemmas) are stated for the
corrected loop `Schedules.UpdateSchedules`, where a failed read is returned as an
error and the item is skipped.

## Left out

- Router, request binding, cache start-up and the HTTP server life cycle (manager/server.go:54-177): framework plumbing. Binding errors are ignored by the handlers, so a request body is taken as already decoded.
- HTTP status codes and response bodies. `updateSchedules` can write several responses in one request (one per reported error, then the final one). The model keeps a per-item log instead.
- The read/write mutex: each handler takes the lock separately around its read and its write, so a read-modify-write is not atomic. Each handler is modelled as one sequential step, and interleavings are not modelled.
- `PostJSON` (manager/server.go:470-482): a network call. It is modelled only as the `Post` effect plus the `delivered` parameter. As written it posts to the empty URL with a per-call client (5 s timeout) because the manager's client field is never set. A post to the empty URL fails with an unsupported-protocol-scheme error, so as written every command for a stored mirror gets a relay-failure reply: `delivered` is always false in practice.
- The Kubernetes client: abstracted to a map. A failed `Get` is modelled as the mirror being absent, so transient read errors on an existing mirror are not distinguished. Write refusals are the `accepted` parameter, or the `rejects` set of write ordinals in a batch.
- The nil dereference in `GetJob` (manager/server.go:195) after a failed read in `updateJob`, `updateMirrorSize`, `handleClientCmd` and `updateSchedules`. The handler dies after its read, between `Lock` and `Unlock`, so the manager's lock stays held and later requests block. For the three single-record handlers this is modelled as a `LookupFailed` reply with no write and no post, and the held lock is not modelled. For `updateSchedules` both the as-written batch and the corrected one are modelled (see Findings).
- `listAllJobs`, `getJob`, `deleteJob`, `GetJob`, `CreateJob` (manager/server.go:193-285): reads and deletion, not part of the status decision logic.
- `time.Now()`: every handler receives a single `now`. `registerMirror` reads the clock three times (manager/server.go:205, 291, 292); `updateJob` reads it at manager/server.go:373 for its merge and reply and again inside `UpdateJobStatus` at 205 for the stored `lastOnline`; `updateSchedules` reads it once per write (205). The model uses one reading for all of them, so a stored `lastOnline` equal to the reply's `curTime` is a property of the model, not of the code.
- MirrorSize.SizeNeverRegresses: covers only status reports whose body id is the mirror of the URL. `updateJob` accepts a report whose body names another mirror, and such a report can regress that mirror's known size (`StatusMerge.CrossIdReportRegressesSize`).
- Logging.
- `internal.CmdDisable` is used at manager/server.go:501 but defined in neither `internal` file. The command model has its own verb enum including Disable and Update, with no string codec.
- Fields of `v1beta1.JobStatus` that the handlers never touch by name, and the extra `MirrorStatus` fields of internal/types.go (alias, description, URL, type): `v1beta1` is not part of this model.
- JsonString.Unquote: JSON string literals with backslash escapes are reported as `EscapeNotModelled` instead of being decoded. Invalid UTF-8 is not modelled because strings are sequences of characters.
- MsgVerb.UnmarshalJSON: on an error the Go method leaves its receiver unchanged. The model returns only the error.
- TypesVerb.UnmarshalJSON: same as MsgVerb.UnmarshalJSON.

=== FILE: commands.dfy ===
/**
  The command handler `handleClientCmd`: reject an empty mirror id, read the
  mirror, apply the command's local status change (Stop pauses, Disable
  disables), and then post the command to the mirror's worker. The post's
  outcome is a parameter; the error of the local write is ignored, and a
  failed post does not undo the local write.
*/
module Commands {
  import opened Wrappers
  import opened Job
  import opened Store

  /** The local status a verb sets before it is relayed, if any. */
  function LocalStatus(v: Verb): (r: Option<SyncStatus>)
    ensures r.Some? <==> v == Stop || v == Disable
    ensures v == Stop ==> r == Some(Paused)
    ensures v == Disable ==> r == Some(Disabled)
  {
    match v
    case Disable => Some(Disabled)
    case Stop => Some(Paused)
    case _ => None
  }

  /**
    `accepted` is the store's verdict on the local write and `delivered`
    whether the post to the worker succeeded.
  */
  function HandleClientCmd(jobs: Jobs, urlId: string, cmd: ClientCmd, now: int, accepted: bool, delivered: bool): (r: Step<()>)
    ensures r.jobs.Keys == jobs.Keys
    // an empty id is rejected before any store access
    ensures urlId == "" ==> r.trace == [] && r.jobs == jobs && r.reply == Err(EmptyId)
    // a missing mirror: the request ends after the read, nothing is posted
    ensures urlId != "" && urlId !in jobs ==>
              r.trace == [Get(urlId)] && r.jobs == jobs && r.reply == Err(LookupFailed(urlId))
    // otherwise the post is the last effect, whatever happened to the write
    ensures urlId != "" && urlId in jobs ==>
              |r.trace| > 0 && r.trace[|r.trace| - 1] == Post(urlId, cmd)
              && (r.reply.Ok? <==> delivered)
    // verbs without a local effect leave the store untouched and write nothing
    ensures LocalStatus(cmd.cmd).None? ==> r.jobs == jobs && NoWrites(r.trace)
    // Stop and Disable write the new status, and the write precedes the post
    ensures urlId != "" && urlId in jobs && LocalStatus(cmd.cmd).Some? ==>
              |r.trace| == 4 && r.trace[2].Put? && r.trace[2].id == urlId
              && r.trace[2].job.status == LocalStatus(cmd.cmd).value
              && r.trace[3] == Post(urlId, cmd)
    ensures urlId != "" && urlId in jobs && LocalStatus(cmd.cmd).Some? && accepted ==>
              r.jobs == jobs[urlId := jobs[urlId].(status := LocalStatus(cmd.cmd).value, lastOnline := now)]
    ensures !accepted ==> r.jobs == jobs
  {
    if urlId == "" then Step(jobs, [], Err(EmptyId))
    else
      match Lookup(jobs, urlId)
      case None => Step(jobs, [Get(urlId)], Err(LookupFailed(urlId)))
      case Some(cur) =>
        var local :=
          match LocalStatus(cmd.cmd)
          case Some(s) => UpdateJobStatus(jobs, MirrorStatus(urlId, cur.(status := s)), now, accepted)
          case None => Step(jobs, [], Ok(cur));
        var reply := if delivered then Ok(()) else Err(RelayFailed(urlId));
        Step(local.jobs, [Get(urlId)] + local.trace + [Post(urlId, cmd)], reply)
  }

  /**
    A failed or timed-out post does not roll back the local status change:
    the store after the request is the same whether or not the worker got
    the command.
  */
  lemma RelayFailureKeepsLocalChange(jobs: Jobs, urlId: string, cmd: ClientCmd, now: int, accepted: bool)
    ensures HandleClientCmd(jobs, urlId, cmd, now, accepted, false).jobs
         == HandleClientCmd(jobs, urlId, cmd, now, accepted, true).jobs
    ensures HandleClientCmd(jobs, urlId, cmd, now, accepted, false).reply == (
              if urlId == "" then Err(EmptyId)
              else if urlId !in jobs then Err(LookupFailed(urlId))
              else Err(RelayFailed(urlId)))
  {
  }

  /** Stop leaves the mirror Paused even when the worker never receives the command. */
  lemma StopPausesEvenIfUndelivered(jobs: Jobs, id: string, force: bool, now: int)
    requires id != "" && id in jobs
    ensures var r := HandleClientCmd(jobs, id, ClientCmd(Stop, force), now, true, false);
            r.reply.Err? && r.jobs[id].status == Paused
  {
  }
}

=== FILE: job.dfy ===
/**
  The per-mirror job record and the request payloads the manager handles.
  The record type itself (api/v1beta1) is not part of this model: only the
  fields the manager's handlers read or write are represented.
  Timestamps are Unix seconds (Go int64), modelled as unbounded integers.
*/
module Job {

  /** Lifecycle state of a mirror's sync job. `NoStatus` is the zero value. */
  datatype SyncStatus = NoStatus | PreSyncing | Syncing | Success | Failed | Paused | Disabled

  /** The persisted status part of a job (v1beta1.JobStatus). */
  datatype JobStatus = JobStatus(
    status: SyncStatus,
    lastOnline: int,
    lastRegister: int,
    lastUpdate: int,
    lastStarted: int,
    lastEnded: int,
    scheduled: int,
    size: string)

  /** A status report or reply: a mirror id together with a job status. */
  datatype MirrorStatus = MirrorStatus(id: string, job: JobStatus)

  /** One item of a schedule batch (internal.MirrorSchedule). */
  datatype MirrorSchedule = MirrorSchedule(mirrorId: string, nextSchedule: int)

  /** Body of a size report: `id` is only used for logging by the manager. */
  datatype SizeMsg = SizeMsg(id: string, size: string)

  /**
    Command verbs as the command handler switches on them. `Disable` is used
    by the handler but defined in neither copy of the `internal` package, so
    this enum carries no string codec.
  */
  datatype Verb = Start | Stop | Restart | Ping | Disable | Update

  /** A command as posted by the control tool and relayed to the worker. */
  datatype ClientCmd = ClientCmd(cmd: Verb, force: bool)

  /** The size sentinel a worker sends when it could not measure the mirror. */
  const UnknownSize: string := "unknown"

  /** A size carries information: it is neither empty nor the sentinel. */
  predicate KnownSize(s: string) {
    |s| > 0 && s != UnknownSize
  }
}

=== FILE: json_string.dfy ===
/**
  The part of JSON that the verb codecs rely on: writing a string as a JSON
  string literal, and `json.Unmarshal` into a Go string. Decoding covers
  surrounding whitespace, `null` (which leaves the target string at its
  zero value ""), and literals without escape sequences; a literal that
  contains a backslash escape is reported as not modelled.
*/
module JsonString {
  import opened Wrappers

  datatype JsonError =
    | Invalid             // malformed JSON, or a JSON value that is not a string
    | EscapeNotModelled   // a string literal with escape sequences

  /** JSON insignificant whitespace. */
  predicate IsSpace(c: char) {
    c == ' ' || c == '\t' || c == '\n' || c == '\r'
  }

  function TrimLeft(s: string): (r: string)
    ensures |r| <= |s| && r == s[|s| - |r|..]
    ensures |r| > 0 ==> !IsSpace(r[0])
    ensures forall i :: 0 <= i < |s| - |r| ==> IsSpace(s[i])
    decreases |s|
  {
    if |s| > 0 && IsSpace(s[0]) then TrimLeft(s[1..]) else s
  }

  function TrimRight(s: string): (r: string)
    ensures |r| <= |s| && r == s[..|r|]
    ensures |r| > 0 ==> !IsSpace(r[|r| - 1])
    ensures forall i :: |r| <= i < |s| ==> IsSpace(s[i])
    decreases |s|
  {
    if |s| > 0 && IsSpace(s[|s| - 1]) then TrimRight(s[..|s| - 1]) else s
  }

  function Trim(s: string): (r: string)
    ensures |r| <= |s|
  {
    TrimRight(TrimLeft(s))
  }

  /** A character that may stand for itself inside a JSON string literal. */
  predicate Plain(c: char) {
    c != '"' && c != '\\' && c >= ' '
  }

  predicate PlainString(s: string) {
    forall i :: 0 <= i < |s| ==> Plain(s[i])
  }

  /** The JSON string literal of a string that needs no escaping. */
  function Quote(s: string): (b: string)
    ensures |b| == |s| + 2 && b[0] == '"' && b[|b| - 1] == '"' && b[1..|b| - 1] == s
  {
    "\"" + s + "\""
  }

  /** Decode a JSON document that has no surrounding whitespace. */
  function UnquoteTrimmed(t: string): (r: Result<string, JsonError>)
    ensures t == "null" ==> r == Ok("")
    ensures r.Ok? && t != "null" ==> PlainString(r.value) && t == Quote(r.value)
    ensures r == Err(EscapeNotModelled) ==> '\\' in t
  {
    if t == "null" then Ok("")
    else if |t| >= 2 && t[0] == '"' && t[|t| - 1] == '"' then
      var body := t[1..|t| - 1];
      if PlainString(body) then Ok(body)
      else if '\\' in body then Err(EscapeNotModelled)
      else Err(Invalid)
    else Err(Invalid)
  }

  /** Decode a JSON document into a Go string. */
  function Unquote(b: string): (r: Result<string, JsonError>)
    ensures Trim(b) == "null" ==> r == Ok("")
    ensures r.Ok? && Trim(b) != "null" ==> PlainString(r.value) && Trim(b) == Quote(r.value)
    ensures forall s :: PlainString(s) && Trim(b) == Quote(s) ==> r == Ok(s)
  {
    UnquoteTrimmedQuote(Trim(b));
    UnquoteTrimmed(Trim(b))
  }

  /** A document that is the literal of a plain string decodes to that string. */
  lemma UnquoteTrimmedQuote(t: string)
    ensures forall s :: PlainString(s) && t == Quote(s) ==> UnquoteTrimmed(t) == Ok(s)
  {
    forall s | PlainString(s) && t == Quote(s)
      ensures UnquoteTrimmed(t) == Ok(s)
    {
      assert t != "null" by { assert t[0] != "null"[0]; }
      assert t[1..|t| - 1] == s;
    }
  }

  /** A string literal begins and ends with a quote, so trimming leaves it alone. */
  lemma TrimQuoted(s: string)
    ensures Trim(Quote(s)) == Quote(s)
  {
  }

  /** Decoding the literal of a plain string gives the string back. */
  lemma UnquoteQuote(s: string)
    requires PlainString(s)
    ensures Unquote(Quote(s)) == Ok(s)
  {
    var t := Quote(s);
    assert t != "null" by { assert t[0] != "null"[0]; }
    assert t[1..|t| - 1] == s;
    assert UnquoteTrimmed(t) == Ok(s);
    TrimQuoted(s);
    assert Unquote(t) == UnquoteTrimmed(Trim(t));
  }
}

=== FILE: mirror_size.dfy ===
/**
  The size-only handler `updateMirrorSize`. Its guard, meant to let only a
  meaningful size through, is a disjunction that every string satisfies, so
  the handler as written stores whatever size it receives. Both the handler
  as written and the handler with the evidently intended guard are modelled.
*/
module MirrorSize {
  import opened Wrappers
  import opened Job
  import opened Store
  import StatusMerge

  /** The guard as written: non-empty OR not the sentinel. */
  predicate GuardAsWritten(size: string) {
    |size| > 0 || size != UnknownSize
  }

  /** The guard as written admits every string, including "" and "unknown". */
  lemma GuardAsWrittenAlwaysHolds(size: string)
    ensures GuardAsWritten(size)
  {
  }

  /**
    The handler as written: read the mirror of the URL, overwrite its size
    (the guard never fails) and write it back through UpdateJobStatus.
    `msg.id` is only logged.
  */
  function UpdateMirrorSize(jobs: Jobs, urlId: string, msg: SizeMsg, now: int, accepted: bool): (r: Step<MirrorStatus>)
    ensures r.jobs.Keys == jobs.Keys
    ensures r.reply.Ok? <==> urlId in jobs && accepted
    ensures urlId !in jobs ==> r.jobs == jobs && r.trace == [Get(urlId)]
    ensures r.reply.Ok? ==>
              && r.jobs[urlId].size == msg.size
              && r.jobs[urlId].lastOnline == now
              && r.jobs[urlId] == jobs[urlId].(size := msg.size, lastOnline := now)
              && r.reply.value == MirrorStatus(urlId, jobs[urlId].(size := msg.size))
    ensures forall k :: k in jobs && k != urlId ==> r.jobs[k] == jobs[k]
    ensures r.reply.Err? ==> r.jobs == jobs
  {
    match Lookup(jobs, urlId)
    case None => Step(jobs, [Get(urlId)], Err(LookupFailed(urlId)))
    case Some(cur) =>
      GuardAsWrittenAlwaysHolds(msg.size);
      var status := if GuardAsWritten(msg.size) then cur.(size := msg.size) else cur;
      var w := UpdateJobStatus(jobs, MirrorStatus(urlId, status), now, accepted);
      var reply := if w.reply.Ok? then Ok(MirrorStatus(urlId, status)) else Err(w.reply.error);
      Step(w.jobs, [Get(urlId)] + w.trace, reply)
  }

  /**
    Counterexample: a stored known size is overwritten by the sentinel
    "unknown" (and likewise by the empty string).
  */
  lemma AsWrittenRegressesSize(cur: JobStatus, now: int)
    requires cur.size == "10G"
    ensures var r := UpdateMirrorSize(map["m" := cur], "m", SizeMsg("m", UnknownSize), now, true);
            r.reply.Ok? && KnownSize(cur.size) && !KnownSize(r.jobs["m"].size)
    ensures var r := UpdateMirrorSize(map["m" := cur], "m", SizeMsg("m", ""), now, true);
            r.reply.Ok? && r.jobs["m"].size == ""
  {
  }

  /** The handler with the evidently intended guard: only a known size is stored. */
  function UpdateMirrorSizeIntended(jobs: Jobs, urlId: string, msg: SizeMsg, now: int, accepted: bool): (r: Step<MirrorStatus>)
    ensures r.jobs.Keys == jobs.Keys
    ensures r.reply.Ok? <==> urlId in jobs && accepted
    ensures r.reply.Ok? && KnownSize(msg.size) ==> r.jobs[urlId].size == msg.size
    ensures r.reply.Ok? && !KnownSize(msg.size) ==> r.jobs[urlId].size == jobs[urlId].size
    ensures r.reply.Ok? ==> SameButOnline(r.jobs[urlId], jobs[urlId].(size := r.jobs[urlId].size))
    ensures r.reply.Ok? ==>
              urlId in jobs && r.jobs[urlId].lastOnline == now &&
              r.reply.value == MirrorStatus(urlId, r.jobs[urlId].(lastOnline := jobs[urlId].lastOnline))
    ensures forall k :: k in jobs && k != urlId ==> r.jobs[k] == jobs[k]
    ensures r.reply.Err? ==> r.jobs == jobs
  {
    match Lookup(jobs, urlId)
    case None => Step(jobs, [Get(urlId)], Err(LookupFailed(urlId)))
    case Some(cur) =>
      var status := if KnownSize(msg.size) then cur.(size := msg.size) else cur;
      var w := UpdateJobStatus(jobs, MirrorStatus(urlId, status), now, accepted);
      var reply := if w.reply.Ok? then Ok(MirrorStatus(urlId, status)) else Err(w.reply.error);
      Step(w.jobs, [Get(urlId)] + w.trace, reply)
  }

  /** The two handlers agree on every known size; they differ only on "" and "unknown". */
  lemma IntendedAgreesOnKnownSizes(jobs: Jobs, urlId: string, msg: SizeMsg, now: int, accepted: bool)
    ensures KnownSize(msg.size) ==>
              UpdateMirrorSizeIntended(jobs, urlId, msg, now, accepted) == UpdateMirrorSize(jobs, urlId, msg, now, accepted)
  {
  }

  /**
    A request to the manager that can change a mirror's size: a status report
    about the mirror of its own URL (merged by updateJob) or a size report
    (updateMirrorSize, as intended). Each request carries its arrival time and
    the store's verdict on its write.
  */
  datatype SizeRequest =
    | StatusReport(incoming: JobStatus, at: int, accepted: bool)
    | SizeReport(size: string, at: int, accepted: bool)

  /** The mirror's record after one request. */
  function Apply(cur: JobStatus, req: SizeRequest): (r: JobStatus)
    ensures !req.accepted ==> r == cur
  {
    var jobs := map["m" := cur];
    match req
    case StatusReport(incoming, at, accepted) =>
      StatusMerge.UpdateJob(jobs, "m", MirrorStatus("m", incoming), at, accepted).jobs["m"]
    case SizeReport(size, at, accepted) =>
      UpdateMirrorSizeIntended(jobs, "m", SizeMsg("m", size), at, accepted).jobs["m"]
  }

  /** The mirror's record after a sequence of requests, in arrival order. */
  function ApplyAll(cur: JobStatus, reqs: seq<SizeRequest>): (r: JobStatus)
    decreases |reqs|
  {
    if |reqs| == 0 then cur else ApplyAll(Apply(cur, reqs[0]), reqs[1..])
  }

  /**
    Size monotonicity with the intended guard: once a mirror's size is known,
    no interleaving of its own status reports and size reports, at any times
    and whether or not the store accepts each write, makes it unknown.
  */
  lemma {:induction false} SizeNeverRegresses(cur: JobStatus, reqs: seq<SizeRequest>)
    requires KnownSize(cur.size)
    ensures KnownSize(ApplyAll(cur, reqs).size)
    decreases |reqs|
  {
    if |reqs| > 0 {
      SizeNeverRegresses(Apply(cur, reqs[0]), reqs[1..]);
    }
  }
}

=== FILE: msg_verb.dfy ===
/**
  The command verb codec of internal/msg.go (the copy the manager imports).
  A verb is a Go uint8; the four named verbs are 0..3 and every other value
  has no name. Looking up a missing key in a Go map yields the zero value,
  so an unnamed verb prints as "" and an unknown string decodes to CmdStart.
*/
module MsgVerb {
  import opened Wrappers
  import opened JsonString

  newtype CmdVerb = x: int | 0 <= x < 256

  const CmdStart: CmdVerb := 0
  const CmdStop: CmdVerb := 1
  const CmdRestart: CmdVerb := 2
  const CmdPing: CmdVerb := 3

  /** The names of the verbs, the keys of the decoding table. */
  const Names: set<string> := {"start", "stop", "restart", "ping"}

  /** A verb the encoding table has an entry for. */
  predicate Named(v: CmdVerb) {
    v <= CmdPing
  }

  /** CmdVerb.String */
  function ToString(v: CmdVerb): (s: string)
    ensures Named(v) <==> s in Names
    ensures !Named(v) ==> s == ""
    ensures v == CmdStart ==> s == "start"
    ensures v == CmdStop ==> s == "stop"
    ensures v == CmdRestart ==> s == "restart"
    ensures v == CmdPing ==> s == "ping"
    ensures PlainString(s)
  {
    if v == CmdStart then "start"
    else if v == CmdStop then "stop"
    else if v == CmdRestart then "restart"
    else if v == CmdPing then "ping"
    else ""
  }

  /** NewCmdVerbFromString: total, with CmdStart for every unknown string. */
  function FromString(s: string): (v: CmdVerb)
    ensures Named(v)
    ensures s !in Names ==> v == CmdStart
    ensures s in Names ==> ToString(v) == s
    ensures s == "start" ==> v == CmdStart
    ensures s == "stop" ==> v == CmdStop
    ensures s == "restart" ==> v == CmdRestart
    ensures s == "ping" ==> v == CmdPing
  {
    if s == "start" then CmdStart
    else if s == "stop" then CmdStop
    else if s == "restart" then CmdRestart
    else if s == "ping" then CmdPing
    else CmdStart
  }

  /** Decoding the name of a named verb gives the verb back. */
  lemma FromToString(v: CmdVerb)
    requires Named(v)
    ensures FromString(ToString(v)) == v
  {
  }

  /** The four named verbs have four distinct, non-empty names. */
  lemma NamesDistinct(a: CmdVerb, b: CmdVerb)
    requires Named(a) && Named(b) && a != b
    ensures ToString(a) != ToString(b)
    ensures |ToString(a)| > 0
  {
  }

  /** A string survives decoding and re-encoding exactly when it is one of the four names. */
  lemma ToFromString(s: string)
    ensures ToString(FromString(s)) == s <==> s in Names
  {
  }

  /** CmdVerb.MarshalJSON: the verb's name as a JSON string; the error is always nil. */
  function MarshalJSON(v: CmdVerb): (r: Result<string, JsonError>)
    ensures r.Ok?
    ensures |r.value| == |ToString(v)| + 2 && r.value[0] == '"' && r.value[|r.value| - 1] == '"'
    ensures r.value[1..|r.value| - 1] == ToString(v)
    ensures Unquote(r.value) == Ok(ToString(v))
  {
    UnquoteQuote(ToString(v));
    Ok(Quote(ToString(v)))
  }

  /**
    CmdVerb.UnmarshalJSON: decode a JSON string and look its name up. On an
    error the receiver keeps its previous value, which is not modelled here.
  */
  function UnmarshalJSON(b: string): (r: Result<CmdVerb, JsonError>)
    ensures r.Ok? <==> Unquote(b).Ok?
    ensures r.Ok? ==> Named(r.value)
    ensures r.Ok? && Unquote(b).value !in Names ==> r.value == CmdStart
    ensures r.Ok? && Unquote(b).value in Names ==> ToString(r.value) == Unquote(b).value
  {
    match Unquote(b)
    case Ok(j) => Ok(FromString(j))
    case Err(e) => Err(e)
  }

  /** Every named verb survives a JSON round trip. */
  lemma JsonRoundTrip(v: CmdVerb)
    requires Named(v)
    ensures UnmarshalJSON(MarshalJSON(v).value) == Ok(v)
  {
    FromToString(v);
  }

  /** An unnamed verb is written as "" and read back as CmdStart. */
  lemma UnnamedVerbJson(v: CmdVerb)
    requires !Named(v)
    ensures MarshalJSON(v).value == "\"\""
    ensures UnmarshalJSON(MarshalJSON(v).value) == Ok(CmdStart)
  {
  }
}

=== FILE: schedules.dfy ===
/**
  The schedule batch handler `updateSchedules`: a sequential fold over the
  batch items against the store. Per item: an empty id is reported but the
  item still goes on to the lookup; a failed lookup skips the item; an
  unchanged schedule is skipped without a write; otherwise the record is
  written back with the new schedule, and a failed write ends the batch.
*/
module Schedules {
  import opened Wrappers
  import opened Job
  import opened Store

  /** What happened to one item of the batch. */
  datatype ItemOutcome = NotFound | Unchanged | Written | WriteRefused

  /** The per-item log entry; `emptyId` records the validation error reported for an empty id. */
  datatype ItemReport = ItemReport(id: string, emptyId: bool, outcome: ItemOutcome)

  /**
    The state threaded through the loop: the store, the per-item log, the
    number of write attempts so far, and whether a failed write ended the batch.
  */
  datatype Batch = Batch(jobs: Jobs, reports: seq<ItemReport>, writes: nat, aborted: bool)

  /**
    One loop iteration. `rejects` holds the ordinals (counted from 0 within
    the request) of the write attempts the store refuses.
  */
  function ScheduleItem(b: Batch, item: MirrorSchedule, now: int, rejects: set<nat>): (r: Batch)
    requires !b.aborted
    ensures r.jobs.Keys == b.jobs.Keys
    ensures |r.reports| == |b.reports| + 1 && r.reports[..|b.reports|] == b.reports
    ensures r.reports[|b.reports|].id == item.mirrorId
    ensures r.reports[|b.reports|].emptyId <==> item.mirrorId == ""
    // a failed lookup: logged, no write, the batch goes on
    ensures item.mirrorId !in b.jobs ==>
              r.jobs == b.jobs && r.writes == b.writes && !r.aborted
              && r.reports[|b.reports|].outcome == NotFound
    // an unchanged schedule: no write
    ensures item.mirrorId in b.jobs && b.jobs[item.mirrorId].scheduled == item.nextSchedule ==>
              r.jobs == b.jobs && r.writes == b.writes && !r.aborted
              && r.reports[|b.reports|].outcome == Unchanged
    // a changed schedule: exactly one write attempt
    ensures item.mirrorId in b.jobs && b.jobs[item.mirrorId].scheduled != item.nextSchedule ==>
              r.writes == b.writes + 1 && (r.aborted <==> b.writes in rejects)
    // the written record differs from the stored one only in schedule and lastOnline
    ensures item.mirrorId in b.jobs && b.jobs[item.mirrorId].scheduled != item.nextSchedule && !r.aborted ==>
              r.jobs == b.jobs[item.mirrorId := b.jobs[item.mirrorId].(scheduled := item.nextSchedule, lastOnline := now)]
              && r.reports[|b.reports|].outcome == Written
    // a failed write leaves the store as it was
    ensures r.aborted ==> r.jobs == b.jobs && r.reports[|b.reports|].outcome == WriteRefused
  {
    var id := item.mirrorId;
    var emptyId := |id| == 0;
    match Lookup(b.jobs, id)
    case None =>
      b.(reports := b.reports + [ItemReport(id, emptyId, NotFound)])
    case Some(cur) =>
      if cur.scheduled == item.nextSchedule then
        b.(reports := b.reports + [ItemReport(id, emptyId, Unchanged)])
      else
        var w := UpdateJobStatus(b.jobs, MirrorStatus(id, cur.(scheduled := item.nextSchedule)), now, b.writes !in rejects);
        if w.reply.Ok? then
          Batch(w.jobs, b.reports + [ItemReport(id, emptyId, Written)], b.writes + 1, false)
        else
          Batch(b.jobs, b.reports + [ItemReport(id, emptyId, WriteRefused)], b.writes + 1, true)
  }

  /** The loop over the remaining items; it stops at the first failed write. */
  function Run(b: Batch, items: seq<MirrorSchedule>, now: int, rejects: set<nat>): (r: Batch)
    ensures r.jobs.Keys == b.jobs.Keys
    ensures b.aborted ==> r == b
    ensures r.writes >= b.writes
    ensures |b.reports| <= |r.reports| <= |b.reports| + |items| && r.reports[..|b.reports|] == b.reports
    ensures !r.aborted ==> |r.reports| == |b.reports| + |items|
    decreases |items|
  {
    if |items| == 0 || b.aborted then b
    else Run(ScheduleItem(b, items[0], now, rejects), items[1..], now, rejects)
  }

  /** The handler: fold the whole batch over the store. */
  function UpdateSchedules(jobs: Jobs, items: seq<MirrorSchedule>, now: int, rejects: set<nat>): (r: Batch)
    ensures r.jobs.Keys == jobs.Keys
    ensures !r.aborted ==> |r.reports| == |items|
    ensures r.aborted ==> 0 < |r.reports| <= |items| && r.reports[|r.reports| - 1].outcome == WriteRefused
  {
    var r := Run(Batch(jobs, [], 0, false), items, now, rejects);
    AbortedEndsWithFailedWrite(Batch(jobs, [], 0, false), items, now, rejects);
    r
  }

  /** A batch that ends early ends on the item whose write failed. */
  lemma {:induction false} AbortedEndsWithFailedWrite(b: Batch, items: seq<MirrorSchedule>, now: int, rejects: set<nat>)
    requires !b.aborted
    ensures var r := Run(b, items, now, rejects);
            r.aborted ==> |r.reports| > |b.reports| && r.reports[|r.reports| - 1].outcome == WriteRefused
    decreases |items|
  {
    if |items| > 0 {
      var b1 := ScheduleItem(b, items[0], now, rejects);
      if !b1.aborted {
        AbortedEndsWithFailedWrite(b1, items[1..], now, rejects);
      }
    }
  }

  /** Every item of the batch whose mirror exists already has the item's schedule. */
  ghost predicate Settled(jobs: Jobs, items: seq<MirrorSchedule>) {
    forall i :: 0 <= i < |items| && items[i].mirrorId in jobs ==> jobs[items[i].mirrorId].scheduled == items[i].nextSchedule
  }

  /** Items naming the same mirror carry the same schedule. */
  ghost predicate Consistent(items: seq<MirrorSchedule>) {
    forall i, j :: 0 <= i < |items| && 0 <= j < |items| && items[i].mirrorId == items[j].mirrorId ==>
      items[i].nextSchedule == items[j].nextSchedule
  }

  /** A batch every item of which is already settled performs no write. */
  lemma {:induction false} SettledBatchWritesNothing(b: Batch, items: seq<MirrorSchedule>, now: int, rejects: set<nat>)
    requires !b.aborted && Settled(b.jobs, items)
    ensures var r := Run(b, items, now, rejects);
            r.jobs == b.jobs && r.writes == b.writes && !r.aborted
    decreases |items|
  {
    if |items| > 0 {
      var b1 := ScheduleItem(b, items[0], now, rejects);
      assert b1.jobs == b.jobs && b1.writes == b.writes && !b1.aborted;
      assert Settled(b1.jobs, items[1..]) by {
        forall i | 0 <= i < |items[1..]| && items[1..][i].mirrorId in b1.jobs
          ensures b1.jobs[items[1..][i].mirrorId].scheduled == items[1..][i].nextSchedule
        {
          assert items[1..][i] == items[i + 1];
        }
      }
      SettledBatchWritesNothing(b1, items[1..], now, rejects);
    }
  }

  /**
    The loop keeps a mirror's schedule at `v` when every item naming that
    mirror asks for `v`.
  */
  lemma {:induction false} RunKeepsSchedule(b: Batch, items: seq<MirrorSchedule>, now: int, rejects: set<nat>, id: string, v: int)
    requires id in b.jobs && b.jobs[id].scheduled == v
    requires forall i :: 0 <= i < |items| && items[i].mirrorId == id ==> items[i].nextSchedule == v
    ensures Run(b, items, now, rejects).jobs[id].scheduled == v
    decreases |items|
  {
    if |items| > 0 && !b.aborted {
      var b1 := ScheduleItem(b, items[0], now, rejects);
      RunKeepsSchedule(b1, items[1..], now, rejects, id, v);
    }
  }

  /** A batch of consistent items that runs to the end leaves every existing mirror on its item's schedule. */
  lemma {:induction false} CompletedBatchSettles(b: Batch, items: seq<MirrorSchedule>, now: int, rejects: set<nat>)
    requires Consistent(items)
    requires !Run(b, items, now, rejects).aborted
    ensures Settled(Run(b, items, now, rejects).jobs, items)
    decreases |items|
  {
    if |items| > 0 {
      var r := Run(b, items, now, rejects);
      var b1 := ScheduleItem(b, items[0], now, rejects);
      assert Consistent(items[1..]) by {
        forall i, j | 0 <= i < |items[1..]| && 0 <= j < |items[1..]| && items[1..][i].mirrorId == items[1..][j].mirrorId
          ensures items[1..][i].nextSchedule == items[1..][j].nextSchedule
        {
          assert items[1..][i] == items[i + 1] && items[1..][j] == items[j + 1];
        }
      }
      CompletedBatchSettles(b1, items[1..], now, rejects);
      var id := items[0].mirrorId;
      if id in r.jobs {
        RunKeepsSchedule(b1, items[1..], now, rejects, id, items[0].nextSchedule);
      }
      forall i | 0 <= i < |items| && items[i].mirrorId in r.jobs
        ensures r.jobs[items[i].mirrorId].scheduled == items[i].nextSchedule
      {
        if i > 0 {
          assert items[1..][i - 1] == items[i];
        }
      }
    }
  }

  /**
    Idempotence: running a batch a second time, after a first run that went
    to the end, writes nothing and leaves the store as the first run left it.
  */
  lemma SecondRunWritesNothing(jobs: Jobs, items: seq<MirrorSchedule>, now1: int, now2: int, rejects1: set<nat>, rejects2: set<nat>)
    requires Consistent(items)
    requires !UpdateSchedules(jobs, items, now1, rejects1).aborted
    ensures var first := UpdateSchedules(jobs, items, now1, rejects1);
            var second := UpdateSchedules(first.jobs, items, now2, rejects2);
            second.writes == 0 && second.jobs == first.jobs && !second.aborted
  {
    var first := UpdateSchedules(jobs, items, now1, rejects1);
    CompletedBatchSettles(Batch(jobs, [], 0, false), items, now1, rejects1);
    SettledBatchWritesNothing(Batch(first.jobs, [], 0, false), items, now2, rejects2);
  }

  /** A failed lookup does not end the batch: the remaining items are processed from the same store. */
  lemma LookupFailureContinues(b: Batch, item: MirrorSchedule, rest: seq<MirrorSchedule>, now: int, rejects: set<nat>)
    requires !b.aborted && item.mirrorId !in b.jobs
    ensures var b1 := b.(reports := b.reports + [ItemReport(item.mirrorId, item.mirrorId == "", NotFound)]);
            Run(b, [item] + rest, now, rejects) == Run(b1, rest, now, rejects)
  {
    assert ([item] + rest)[1..] == rest;
  }

  /**
    A failed write ends the batch: the items after it are not processed and
    the writes made before it stay in the store.
  */
  lemma WriteFailureStops(b: Batch, item: MirrorSchedule, rest: seq<MirrorSchedule>, now: int, rejects: set<nat>)
    requires !b.aborted
    requires item.mirrorId in b.jobs && b.jobs[item.mirrorId].scheduled != item.nextSchedule
    requires b.writes in rejects
    ensures var r := Run(b, [item] + rest, now, rejects);
            r.aborted && r.jobs == b.jobs && |r.reports| == |b.reports| + 1
  {
    assert ([item] + rest)[1..] == rest;
  }

  /**
    The empty id is reported but not skipped: the item still reaches the
    lookup, and (since no mirror is named "") is then skipped as a failed
    lookup while the batch goes on.
  */
  lemma EmptyIdFallsThrough(b: Batch, t: int, now: int, rejects: set<nat>)
    requires !b.aborted && "" !in b.jobs
    ensures var r := ScheduleItem(b, MirrorSchedule("", t), now, rejects);
            && r.reports[|b.reports|] == ItemReport("", true, NotFound)
            && r.jobs == b.jobs && !r.aborted
  {
  }

  /**
    Partial failure: in the batch [(a, ta), ("", te), (c, tc)] with a and c
    stored and the store accepting writes, a and c are both rescheduled and
    the empty id in the middle is reported without affecting them.
  */
  lemma MiddleEmptyIdDoesNotHurtNeighbours(jobs: Jobs, a: string, c: string, ta: int, te: int, tc: int, now: int)
    requires a in jobs && c in jobs && "" !in jobs && a != c
    requires jobs[a].scheduled != ta && jobs[c].scheduled != tc
    ensures var r := UpdateSchedules(jobs, [MirrorSchedule(a, ta), MirrorSchedule("", te), MirrorSchedule(c, tc)], now, {});
            && !r.aborted && r.writes == 2
            && r.reports == [ItemReport(a, false, Written), ItemReport("", true, NotFound), ItemReport(c, false, Written)]
            && r.jobs[a] == jobs[a].(scheduled := ta, lastOnline := now)
            && r.jobs[c] == jobs[c].(scheduled := tc, lastOnline := now)
  {
    var items := [MirrorSchedule(a, ta), MirrorSchedule("", te), MirrorSchedule(c, tc)];
    var b0 := Batch(jobs, [], 0, false);
    var b1 := ScheduleItem(b0, items[0], now, {});
    var b2 := ScheduleItem(b1, items[1], now, {});
    var b3 := ScheduleItem(b2, items[2], now, {});
    assert !b1.aborted && !b2.aborted && !b3.aborted;
    assert Run(b0, items, now, {}) == Run(b1, items[1..], now, {});
    assert Run(b1, items[1..], now, {}) == Run(b2, items[2..], now, {}) by { assert items[1..][1..] == items[2..]; }
    assert Run(b2, items[2..], now, {}) == Run(b3, [], now, {}) by { assert items[2..][1..] == []; }
  }

  /*
    The loop as written. GetJob builds its result from the job that the failed
    read returned as nil, so a failed lookup does not reach the `continue` of
    the loop: the request dies on the dereference, inside the section where
    the manager's lock is held, and the lock is never released. Every empty id
    takes this path too, since the empty-id check does not skip the item.
    The loop above, where a failed lookup is skipped, is the corrected one.
  */

  /** The state of the as-written loop: `panicked` means the request died holding the lock. */
  datatype AsWrittenRun = AsWrittenRun(batch: Batch, panicked: bool)

  /** One iteration as written: a failed lookup ends the request. */
  function ScheduleItemAsWritten(b: Batch, item: MirrorSchedule, now: int, rejects: set<nat>): (r: AsWrittenRun)
    requires !b.aborted
    ensures item.mirrorId !in b.jobs ==> r.panicked && r.batch.aborted && r.batch.jobs == b.jobs && r.batch.writes == b.writes
    ensures item.mirrorId in b.jobs ==> !r.panicked && r.batch == ScheduleItem(b, item, now, rejects)
  {
    var id := item.mirrorId;
    if id !in b.jobs then
      AsWrittenRun(b.(reports := b.reports + [ItemReport(id, |id| == 0, NotFound)], aborted := true), true)
    else
      AsWrittenRun(ScheduleItem(b, item, now, rejects), false)
  }

  /** The loop as written: it stops at the first failed write or failed lookup. */
  function RunAsWritten(s: AsWrittenRun, items: seq<MirrorSchedule>, now: int, rejects: set<nat>): (r: AsWrittenRun)
    requires s.panicked ==> s.batch.aborted
    ensures s.batch.aborted ==> r == s
    ensures r.batch.jobs.Keys == s.batch.jobs.Keys
    ensures s.panicked ==> r.panicked
    ensures r.panicked ==> r.batch.aborted
    ensures |s.batch.reports| <= |r.batch.reports| && r.batch.reports[..|s.batch.reports|] == s.batch.reports
    ensures !r.batch.aborted ==> |r.batch.reports| == |s.batch.reports| + |items|
    ensures !s.panicked && r.panicked ==>
              |r.batch.reports| > |s.batch.reports| &&
              r.batch.reports[|r.batch.reports| - 1].outcome == NotFound &&
              r.batch.reports[|r.batch.reports| - 1].id !in s.batch.jobs
    decreases |items|
  {
    if |items| == 0 || s.batch.aborted then s
    else
      var s1 := ScheduleItemAsWritten(s.batch, items[0], now, rejects);
      RunAsWritten(AsWrittenRun(s1.batch, s.panicked || s1.panicked), items[1..], now, rejects)
  }

  /** The handler as written. */
  function UpdateSchedulesAsWritten(jobs: Jobs, items: seq<MirrorSchedule>, now: int, rejects: set<nat>): (r: AsWrittenRun)
    ensures r.batch.jobs.Keys == jobs.Keys
    ensures r.panicked ==> r.batch.aborted
  {
    RunAsWritten(AsWrittenRun(Batch(jobs, [], 0, false), false), items, now, rejects)
  }

  /**
    When every item names a stored mirror, the loop as written and the
    corrected loop do the same thing and nothing panics.
  */
  lemma {:induction false} AsWrittenAgreesWhenAllFound(b: Batch, items: seq<MirrorSchedule>, now: int, rejects: set<nat>)
    requires forall i :: 0 <= i < |items| ==> items[i].mirrorId in b.jobs
    ensures RunAsWritten(AsWrittenRun(b, false), items, now, rejects) == AsWrittenRun(Run(b, items, now, rejects), false)
    decreases |items|
  {
    if |items| > 0 && !b.aborted {
      var b1 := ScheduleItem(b, items[0], now, rejects);
      assert forall i :: 0 <= i < |items[1..]| ==> items[1..][i].mirrorId in b1.jobs by {
        forall i | 0 <= i < |items[1..]| ensures items[1..][i].mirrorId in b1.jobs {
          assert items[1..][i] == items[i + 1];
        }
      }
      AsWrittenAgreesWhenAllFound(b1, items[1..], now, rejects);
    }
  }

  /**
    Counterexample: in the batch [(a, ta), ("", te), (c, tc)] the request as
    written reschedules a, dies on the empty id with the lock held, and never
    reaches c, which the corrected loop reschedules.
  */
  lemma EmptyIdPanicsAsWritten(jobs: Jobs, a: string, c: string, ta: int, te: int, tc: int, now: int)
    requires a in jobs && c in jobs && "" !in jobs && a != c
    requires jobs[a].scheduled != ta && jobs[c].scheduled != tc
    ensures var items := [MirrorSchedule(a, ta), MirrorSchedule("", te), MirrorSchedule(c, tc)];
            var r := UpdateSchedulesAsWritten(jobs, items, now, {});
            && r.panicked && r.batch.writes == 1
            && r.batch.jobs[a] == jobs[a].(scheduled := ta, lastOnline := now)
            && r.batch.jobs[c] == jobs[c]
            && UpdateSchedules(jobs, items, now, {}).jobs[c] != jobs[c]
  {
    var items := [MirrorSchedule(a, ta), MirrorSchedule("", te), MirrorSchedule(c, tc)];
    var s0 := AsWrittenRun(Batch(jobs, [], 0, false), false);
    var s1 := ScheduleItemAsWritten(s0.batch, items[0], now, {});
    var s2 := ScheduleItemAsWritten(s1.batch, items[1], now, {});
    assert !s1.panicked && !s1.batch.aborted && s2.panicked;
    assert RunAsWritten(s0, items, now, {}) == RunAsWritten(AsWrittenRun(s1.batch, false), items[1..], now, {});
    assert RunAsWritten(AsWrittenRun(s1.batch, false), items[1..], now, {})
        == RunAsWritten(AsWrittenRun(s2.batch, true), items[2..], now, {}) by { assert items[1..][1..] == items[2..]; }
    MiddleEmptyIdDoesNotHurtNeighbours(jobs, a, c, ta, te, tc, now);
  }
}

=== FILE: status_merge.dfy ===
/**
  The status merge of the `updateJob` handler and the stamping done by
  `registerMirror`. The merge is a pure function of the current record, the
  incoming report and the clock reading `now`.
*/
module StatusMerge {
  import opened Wrappers
  import opened Job
  import opened Store

  /** The incoming status opens a sync: a rising edge into PreSyncing. */
  predicate RisingEdge(cur: JobStatus, incoming: JobStatus) {
    incoming.status == PreSyncing && cur.status != PreSyncing
  }

  /** The incoming status ends a sync, successfully or not. */
  predicate Terminal(s: SyncStatus) {
    s == Success || s == Failed
  }

  /**
    The next record for a mirror whose stored status is `cur` when a worker
    reports `incoming`. Only the three transition timestamps and the size are
    taken from `cur`; every other field comes from the report, and
    `lastOnline` is the clock.
  */
  function Merge(cur: JobStatus, incoming: JobStatus, now: int): (next: JobStatus)
    // liveness: every report stamps lastOnline
    ensures next.lastOnline == now
    // the report's own fields win
    ensures next.status == incoming.status
    ensures next.lastRegister == incoming.lastRegister && next.scheduled == incoming.scheduled
    // lastStarted moves exactly on a rising edge into PreSyncing
    ensures RisingEdge(cur, incoming) ==> next.lastStarted == now
    ensures !RisingEdge(cur, incoming) ==> next.lastStarted == cur.lastStarted
    // lastUpdate moves exactly on Success, lastEnded on Success or Failed
    ensures incoming.status == Success ==> next.lastUpdate == now
    ensures incoming.status != Success ==> next.lastUpdate == cur.lastUpdate
    ensures Terminal(incoming.status) ==> next.lastEnded == now
    ensures !Terminal(incoming.status) ==> next.lastEnded == cur.lastEnded
    // a report never regresses a known size
    ensures KnownSize(incoming.size) ==> next.size == incoming.size
    ensures KnownSize(cur.size) ==> KnownSize(next.size)
    ensures !KnownSize(incoming.size) && KnownSize(cur.size) ==> next.size == cur.size
    ensures !KnownSize(cur.size) ==> next.size == incoming.size
  {
    var started := if RisingEdge(cur, incoming) then now else cur.lastStarted;
    var updated := if incoming.status == Success then now else cur.lastUpdate;
    var ended := if Terminal(incoming.status) then now else cur.lastEnded;
    var size :=
      if |cur.size| > 0 && cur.size != UnknownSize && (|incoming.size| == 0 || incoming.size == UnknownSize)
      then cur.size
      else incoming.size;
    incoming.(lastOnline := now, lastStarted := started, lastUpdate := updated, lastEnded := ended, size := size)
  }

  /**
    The `updateJob` handler. The current record is read under the URL id,
    but the merged status is written under the id carried in the report
    body. A failed read ends the request with no write.
  */
  function UpdateJob(jobs: Jobs, urlId: string, report: MirrorStatus, now: int, accepted: bool): (r: Step<MirrorStatus>)
    ensures r.jobs.Keys == jobs.Keys
    ensures urlId !in jobs ==> r.jobs == jobs && r.trace == [Get(urlId)] && r.reply == Err(LookupFailed(urlId))
    ensures r.reply.Ok? <==> urlId in jobs && report.id in jobs && accepted
    ensures r.reply.Ok? ==>
              && r.reply.value.id == report.id
              && r.reply.value.job == Merge(jobs[urlId], report.job, now)
              && r.jobs == jobs[report.id := r.reply.value.job]
    ensures r.reply.Err? ==> r.jobs == jobs
  {
    match Lookup(jobs, urlId)
    case None => Step(jobs, [Get(urlId)], Err(LookupFailed(urlId)))
    case Some(cur) =>
      var merged := Merge(cur, report.job, now);
      var w := UpdateJobStatus(jobs, MirrorStatus(report.id, merged), now, accepted);
      var reply := if w.reply.Ok? then Ok(MirrorStatus(report.id, merged)) else Err(w.reply.error);
      Step(w.jobs, [Get(urlId)] + w.trace, reply)
  }

  /**
    The `registerMirror` handler: stamp `lastOnline` and `lastRegister` with
    the clock and replace the stored status. Registration of a mirror the
    store does not hold fails: the handler never creates a record.
  */
  function RegisterMirror(jobs: Jobs, mirror: MirrorStatus, now: int, accepted: bool): (r: Step<MirrorStatus>)
    ensures r.jobs.Keys == jobs.Keys
    ensures r.reply.Ok? <==> mirror.id in jobs && accepted
    ensures r.reply.Ok? ==>
              && r.jobs[mirror.id].lastOnline == now
              && r.jobs[mirror.id].lastRegister == now
              && r.jobs[mirror.id] == mirror.job.(lastOnline := now, lastRegister := now)
              && r.reply.value == MirrorStatus(mirror.id, r.jobs[mirror.id])
    ensures forall k :: k in jobs && k != mirror.id ==> r.jobs[k] == jobs[k]
    ensures r.reply.Err? ==> r.jobs == jobs
  {
    var stamped := mirror.job.(lastOnline := now, lastRegister := now);
    var w := UpdateJobStatus(jobs, MirrorStatus(mirror.id, stamped), now, accepted);
    var reply := if w.reply.Ok? then Ok(MirrorStatus(mirror.id, stamped)) else Err(w.reply.error);
    Step(w.jobs, w.trace, reply)
  }

  /**
    When the report names the mirror of the URL, a successful `updateJob`
    replaces exactly that mirror's record by the merge and leaves every other
    mirror alone.
  */
  lemma UpdateJobTouchesOnlyItsMirror(jobs: Jobs, id: string, incoming: JobStatus, now: int)
    requires id in jobs
    ensures var r := UpdateJob(jobs, id, MirrorStatus(id, incoming), now, true);
            && r.reply.Ok?
            && r.jobs[id] == Merge(jobs[id], incoming, now)
            && (forall k :: k in jobs && k != id ==> r.jobs[k] == jobs[k])
            && r.trace == [Get(id), Get(id), Put(id, r.jobs[id])]
  {
  }

  /**
    A report whose body names another mirror than its URL merges the URL
    mirror's record into the body's mirror: here the known size of "b" is
    replaced by "unknown", because the size kept is the one read under "a".
  */
  lemma CrossIdReportRegressesSize(a: JobStatus, b: JobStatus, incoming: JobStatus, now: int)
    requires a.size == "" && b.size == "10G" && incoming.size == UnknownSize
    ensures var r := UpdateJob(map["a" := a, "b" := b], "a", MirrorStatus("b", incoming), now, true);
            r.reply.Ok? && KnownSize(b.size) && r.jobs["b"].size == UnknownSize
  {
  }

  /**
    Registering the same mirror again at the same instant changes nothing
    further: registration is idempotent.
  */
  lemma RegisterIdempotent(jobs: Jobs, mirror: MirrorStatus, now: int, accepted: bool)
    ensures var first := RegisterMirror(jobs, mirror, now, true);
            RegisterMirror(first.jobs, mirror, now, accepted).jobs == first.jobs
  {
  }

  /**
    A report retransmitted with the same content, at any later time, does not
    move `lastStarted`: only the first PreSyncing report is a rising edge.
  */
  lemma RepeatedReportKeepsStart(cur: JobStatus, incoming: JobStatus, now1: int, now2: int)
    ensures Merge(Merge(cur, incoming, now1), incoming, now2).lastStarted == Merge(cur, incoming, now1).lastStarted
  {
  }

  /** Merging the same report twice at the same instant is the same as merging it once. */
  lemma MergeIdempotent(cur: JobStatus, incoming: JobStatus, now: int)
    ensures Merge(Merge(cur, incoming, now), incoming, now) == Merge(cur, incoming, now)
  {
  }

  /** A worker report paired with the clock reading at which it arrived. */
  datatype Report = Report(incoming: JobStatus, at: int)

  /** The record after a sequence of reports has been merged in arrival order. */
  ghost function Replay(cur: JobStatus, reports: seq<Report>): (r: JobStatus)
    decreases |reports|
  {
    if |reports| == 0 then cur
    else Replay(Merge(cur, reports[0].incoming, reports[0].at), reports[1..])
  }

  /** Once a size is known, no sequence of reports makes it unknown again. */
  lemma {:induction false} ReplayNeverForgetsSize(cur: JobStatus, reports: seq<Report>)
    requires KnownSize(cur.size)
    ensures KnownSize(Replay(cur, reports).size)
    decreases |reports|
  {
    if |reports| > 0 {
      ReplayNeverForgetsSize(Merge(cur, reports[0].incoming, reports[0].at), reports[1..]);
    }
  }

  /**
    After a sequence of reports, the size is the one carried by the last
    report whose size is known, if any report carries one.
  */
  lemma {:induction false} ReplaySizeIsLastKnown(cur: JobStatus, reports: seq<Report>, i: nat)
    requires i < |reports| && KnownSize(reports[i].incoming.size)
    requires forall j :: i < j < |reports| ==> !KnownSize(reports[j].incoming.size)
    ensures Replay(cur, reports).size == reports[i].incoming.size
    decreases |reports|
  {
    var next := Merge(cur, reports[0].incoming, reports[0].at);
    if i == 0 {
      ReplayKeepsSize(next, reports[1..]);
    } else {
      ReplaySizeIsLastKnown(next, reports[1..], i - 1);
    }
  }

  /** Reports that carry no known size do not change a known size. */
  lemma {:induction false} ReplayKeepsSize(cur: JobStatus, reports: seq<Report>)
    requires KnownSize(cur.size)
    requires forall j :: 0 <= j < |reports| ==> !KnownSize(reports[j].incoming.size)
    ensures Replay(cur, reports).size == cur.size
    decreases |reports|
  {
    if |reports| > 0 {
      ReplayKeepsSize(Merge(cur, reports[0].incoming, reports[0].at), reports[1..]);
    }
  }

  /**
    After a sequence of reports, `lastUpdate` is the arrival time of the last
    Success report.
  */
  lemma {:induction false} ReplayLastUpdate(cur: JobStatus, reports: seq<Report>, i: nat)
    requires i < |reports| && reports[i].incoming.status == Success
    requires forall j :: i < j < |reports| ==> reports[j].incoming.status != Success
    ensures Replay(cur, reports).lastUpdate == reports[i].at
    decreases |reports|
  {
    var next := Merge(cur, reports[0].incoming, reports[0].at);
    if i == 0 {
      ReplayCarriesUpdate(next, reports[1..]);
    } else {
      ReplayLastUpdate(next, reports[1..], i - 1);
    }
  }

  /**
    After a sequence of reports, `lastEnded` is the arrival time of the last
    report that ended a sync, successfully or not.
  */
  lemma {:induction false} ReplayLastEnded(cur: JobStatus, reports: seq<Report>, i: nat)
    requires i < |reports| && Terminal(reports[i].incoming.status)
    requires forall j :: i < j < |reports| ==> !Terminal(reports[j].incoming.status)
    ensures Replay(cur, reports).lastEnded == reports[i].at
    decreases |reports|
  {
    var next := Merge(cur, reports[0].incoming, reports[0].at);
    if i == 0 {
      ReplayCarriesEnded(next, reports[1..]);
    } else {
      ReplayLastEnded(next, reports[1..], i - 1);
    }
  }

  /** Reports other than Success carry `lastUpdate` forward unchanged. */
  lemma {:induction false} ReplayCarriesUpdate(cur: JobStatus, reports: seq<Report>)
    requires forall j :: 0 <= j < |reports| ==> reports[j].incoming.status != Success
    ensures Replay(cur, reports).lastUpdate == cur.lastUpdate
    decreases |reports|
  {
    if |reports| > 0 {
      ReplayCarriesUpdate(Merge(cur, reports[0].incoming, reports[0].at), reports[1..]);
    }
  }

  /** Reports that are neither Success nor Failed carry `lastEnded` forward unchanged. */
  lemma {:induction false} ReplayCarriesEnded(cur: JobStatus, reports: seq<Report>)
    requires forall j :: 0 <= j < |reports| ==> !Terminal(reports[j].incoming.status)
    ensures Replay(cur, reports).lastEnded == cur.lastEnded
    decreases |reports|
  {
    if |reports| > 0 {
      ReplayCarriesEnded(Merge(cur, reports[0].incoming, reports[0].at), reports[1..]);
    }
  }
}

=== FILE: store.dfy ===
/**
  The record store as the manager sees it: a keyed map of job statuses,
  read by `Get` and written by `UpdateJobStatus`. Every handler is modelled
  as one sequential step that returns the new store, the trace of effects it
  performed in order, and its reply.
*/
module Store {
  import opened Wrappers
  import opened Job

  type Jobs = map<string, JobStatus>

  /** An externally visible effect: a store read, a store write, an outbound post. */
  datatype Effect =
    | Get(id: string)
    | Put(id: string, job: JobStatus)
    | Post(id: string, cmd: ClientCmd)

  /** Why a handler failed. */
  datatype Failure =
    | LookupFailed(id: string)
    | WriteFailed(id: string)
    | EmptyId
    | RelayFailed(id: string)

  /** The result of one handler invocation. */
  datatype Step<+T> = Step(jobs: Jobs, trace: seq<Effect>, reply: Result<T, Failure>)

  /** Read one record (GetJobRaw); a missing mirror is `None`. */
  function Lookup(jobs: Jobs, id: string): (r: Option<JobStatus>)
    ensures r.Some? <==> id in jobs
    ensures r.Some? ==> r.value == jobs[id]
  {
    if id in jobs then Some(jobs[id]) else None
  }

  /** True when the trace contains no store write. */
  predicate NoWrites(trace: seq<Effect>) {
    forall i :: 0 <= i < |trace| ==> !trace[i].Put?
  }

  /** The two records are equal in every field except `lastOnline`. */
  predicate SameButOnline(a: JobStatus, b: JobStatus) {
    a.(lastOnline := 0) == b.(lastOnline := 0)
  }

  /**
    UpdateJobStatus: re-read the mirror named by `w.id`, replace its whole
    status by `w.job` stamped with `lastOnline := now`, and write it back.
    `accepted` is the store's verdict on the write. The operation never
    creates a record: a missing mirror is an error.
  */
  function UpdateJobStatus(jobs: Jobs, w: MirrorStatus, now: int, accepted: bool): (r: Step<JobStatus>)
    ensures r.jobs.Keys == jobs.Keys
    ensures r.reply.Ok? <==> w.id in jobs && accepted
    ensures r.reply.Ok? ==> w.id in r.jobs && r.jobs[w.id] == r.reply.value
    ensures r.reply.Ok? ==> r.reply.value.lastOnline == now && SameButOnline(r.reply.value, w.job)
    ensures forall k :: k in jobs && k != w.id ==> r.jobs[k] == jobs[k]
    ensures r.reply.Err? ==> r.jobs == jobs
    ensures w.id !in jobs ==> r.reply == Err(LookupFailed(w.id)) && r.trace == [Get(w.id)]
    ensures w.id in jobs ==>
              |r.trace| == 2 && r.trace[0] == Get(w.id) && r.trace[1] == Put(w.id, w.job.(lastOnline := now))
  {
    match Lookup(jobs, w.id)
    case None => Step(jobs, [Get(w.id)], Err(LookupFailed(w.id)))
    case Some(_) =>
      var record := w.job.(lastOnline := now);
      var trace := [Get(w.id), Put(w.id, record)];
      if accepted then Step(jobs[w.id := record], trace, Ok(record))
      else Step(jobs, trace, Err(WriteFailed(w.id)))
  }
}

=== FILE: types_verb.dfy ===
/**
  The command verb codec of internal/types.go, a second copy of the one in
  internal/msg.go that adds the verb CmdUpdate (4) without adding it to
  either table: CmdUpdate prints as "" and does not survive a round trip.
*/
module TypesVerb {
  import opened Wrappers
  import opened JsonString

  newtype CmdVerb = x: int | 0 <= x < 256

  const CmdStart: CmdVerb := 0
  const CmdStop: CmdVerb := 1
  const CmdRestart: CmdVerb := 2
  const CmdPing: CmdVerb := 3
  const CmdUpdate: CmdVerb := 4

  /** The names of the verbs, the keys of the decoding table. */
  const Names: set<string> := {"start", "stop", "restart", "ping"}

  /** A verb the encoding table has an entry for. */
  predicate Named(v: CmdVerb) {
    v <= CmdPing
  }

  /** CmdVerb.String */
  function ToString(v: CmdVerb): (s: string)
    ensures Named(v) <==> s in Names
    ensures !Named(v) ==> s == ""
    ensures v == CmdStart ==> s == "start"
    ensures v == CmdStop ==> s == "stop"
    ensures v == CmdRestart ==> s == "restart"
    ensures v == CmdPing ==> s == "ping"
    ensures PlainString(s)
  {
    if v == CmdStart then "start"
    else if v == CmdStop then "stop"
    else if v == CmdRestart then "restart"
    else if v == CmdPing then "ping"
    else ""
  }

  /** NewCmdVerbFromString: total, with CmdStart for every unknown string. */
  function FromString(s: string): (v: CmdVerb)
    ensures Named(v)
    ensures s !in Names ==> v == CmdStart
    ensures s in Names ==> ToString(v) == s
    ensures s == "start" ==> v == CmdStart
    ensures s == "stop" ==> v == CmdStop
    ensures s == "restart" ==> v == CmdRestart
    ensures s == "ping" ==> v == CmdPing
  {
    if s == "start" then CmdStart
    else if s == "stop" then CmdStop
    else if s == "restart" then CmdRestart
    else if s == "ping" then CmdPing
    else CmdStart
  }

  /** Decoding the name of a named verb gives the verb back. */
  lemma FromToString(v: CmdVerb)
    requires Named(v)
    ensures FromString(ToString(v)) == v
  {
  }

  /** The four named verbs have four distinct, non-empty names. */
  lemma NamesDistinct(a: CmdVerb, b: CmdVerb)
    requires Named(a) && Named(b) && a != b
    ensures ToString(a) != ToString(b)
    ensures |ToString(a)| > 0
  {
  }

  /** A string survives decoding and re-encoding exactly when it is one of the four names. */
  lemma ToFromString(s: string)
    ensures ToString(FromString(s)) == s <==> s in Names
  {
  }

  /** CmdVerb.MarshalJSON: the verb's name as a JSON string; the error is always nil. */
  function MarshalJSON(v: CmdVerb): (r: Result<string, JsonError>)
    ensures r.Ok?
    ensures |r.value| == |ToString(v)| + 2 && r.value[0] == '"' && r.value[|r.value| - 1] == '"'
    ensures r.value[1..|r.value| - 1] == ToString(v)
    ensures Unquote(r.value) == Ok(ToString(v))
  {
    UnquoteQuote(ToString(v));
    Ok(Quote(ToString(v)))
  }

  /**
    CmdVerb.UnmarshalJSON: decode a JSON string and look its name up. On an
    error the receiver keeps its previous value, which is not modelled here.
  */
  function UnmarshalJSON(b: string): (r: Result<CmdVerb, JsonError>)
    ensures r.Ok? <==> Unquote(b).Ok?
    ensures r.Ok? ==> Named(r.value)
    ensures r.Ok? && Unquote(b).value !in Names ==> r.value == CmdStart
    ensures r.Ok? && Unquote(b).value in Names ==> ToString(r.value) == Unquote(b).value
  {
    match Unquote(b)
    case Ok(j) => Ok(FromString(j))
    case Err(e) => Err(e)
  }

  /** Every named verb survives a JSON round trip. */
  lemma JsonRoundTrip(v: CmdVerb)
    requires Named(v)
    ensures UnmarshalJSON(MarshalJSON(v).value) == Ok(v)
  {
    FromToString(v);
  }

  /** CmdUpdate has no name: it prints as "" and decodes back to CmdStart. */
  lemma UpdateHasNoName()
    ensures ToString(CmdUpdate) == ""
    ensures FromString(ToString(CmdUpdate)) == CmdStart != CmdUpdate
    ensures MarshalJSON(CmdUpdate) == Ok("\"\"")
    ensures UnmarshalJSON(MarshalJSON(CmdUpdate).value) == Ok(CmdStart)
  {
    UnnamedVerbJson(CmdUpdate);
  }

  /** An unnamed verb is written as "" and read back as CmdStart. */
  lemma UnnamedVerbJson(v: CmdVerb)
    requires !Named(v)
    ensures MarshalJSON(v).value == "\"\""
    ensures UnmarshalJSON(MarshalJSON(v).value) == Ok(CmdStart)
  {
  }
}

=== FILE: wrappers.dfy ===
/** Failure-carrying values shared by the whole model. */
module Wrappers {

  /** A value that may be absent, e.g. a store lookup that found nothing. */
  datatype Option<+T> = None | Some(value: T)

  /** The outcome of an operation that can fail with an error value. */
  datatype Result<+T, +E> = Ok(value: T) | Err(error: E)
}
